=== FILE: README.md ===
# POS back office: authentication service and category rule

A Dafny model of the authentication service of the POS back office. The
service is `UserApplication`. It has two operations:

- **Login** (`GenerateToken`). It looks up an account by user name and
  checks the password with BCrypt. On a match it issues a JSON Web Token
  (RFC 7519) for the account.
- **Registration** (`RegisterUser`). It validates the request and maps it to
  an account. It replaces the password with its BCrypt hash, uploads the
  optional image to the users blob container, and inserts the account.

Both operations fill a response envelope (`BaseResponse`) with a success
flag, a payload, a reply message and field errors. Both catch every
exception, log its message and report a generic failure. The model also
covers the rule set for category requests: the name must be present and not
empty.

The modules are:

- `outcomes.dfy` (`Outcomes`): nullable values, exceptions, and the outcome of
  a call that may throw.
- `runtime.dfy` (`Runtime`): the .NET primitives the token builder relies on.
  These are `Int32.ToString`, `int.Parse` with `NumberStyles.Integer`,
  `DateTime` as ticks with `AddHours`, and `char.IsWhiteSpace`.
- `validation.dfy` (`Validation`): a FluentValidation verdict.
- `category_validator.dfy` (`CategoryValidator`): the `Name` rule chain.
- `token.dfy` (`Tokens`): the claim list, issuer, audience and lifetime of the
  token, as a pure function of the account, the configuration and the
  ambient reads.
- `user_application.dfy` (`UserApplication`): login and registration.

Every collaborator is a function in the `Services` record. Each one returns
a value or throws. The collaborators are:

- account lookup and insert;
- blob upload;
- the mapper;
- the user validator;
- BCrypt verify and hash;
- token signing.

The two GUIDs and the two clock readings of token building are values in
`Readings`. The configuration entries `Jwt:Secret`, `Jwt:Issuer` and
`Jwt:Expires` are the `JwtConfig` record. Each operation returns its
envelope and the ordered trace of collaborator calls it made, so contracts
can say which side effects happen on each path.

The model follows the code as written:

- A known user with a wrong password gets the envelope at its defaults: no
  message, where an unknown user gets MESSAGE_TOKEN_ERROR.
- The `iat` claim holds a fresh GUID, declared as a 64-bit integer. It is
  not a NumericDate (section 4.1.6 of RFC 7519).
- The expiry and the not-before time come from two separate clock readings.
- An exception from the password check is caught like any other.
- The token library refuses a not-before time at or after the expiry, and
  that refusal is caught too. So every issued token expires strictly after
  its not-before time. With a non-positive `Jwt:Expires`, a login whose
  password is accepted fails with the exception message whenever the second
  clock reading is not earlier than the first.

## Model

| member | source | states |
|---|---|---|
| `UserApplication.GenerateToken` | POS.Application/Services/UserApplication.cs:38-72 | Its calls are exactly `LoginTrace`. An unknown user gets IsSuccess false and MESSAGE_TOKEN_ERROR. Success happens exactly when the account exists, Verify returned true and a token was issued; Data is then that token and Message is MESSAGE_TOKEN. A wrong password returns the envelope at its defaults. MESSAGE_EXCEPTION is set exactly when `LoginFault` names an exception (from the lookup, from the check of a found account, or from issuing after an accepted password), and the response is then IsSuccess false with no payload. The envelope invariant holds. |
| `UserApplication.LookupPaths` | POS.Application/Services/UserApplication.cs:44-69 | A lookup that throws gives the trace lookup, log entry; an unknown user gives the lookup alone, so the password is never checked. |
| `UserApplication.FoundPaths` | POS.Application/Services/UserApplication.cs:46-69 | For a found account the trace is the lookup and Verify against its stored hash, followed by: the log entry when Verify throws; nothing for a wrong password; for an accepted password the calls `IssuingTrace` names (four ambient reads and the signing on success), plus the log entry when issuing throws. |
| `UserApplication.LoginCallOrder` | POS.Application/Services/UserApplication.cs:38-72 | In every login trace, Verify appears only right after the lookup and only against the found account's hash; signing appears only after the password was accepted; a log entry appears only last, and it is there exactly when `LoginFault` names an exception, which it carries. |
| `UserApplication.GenerateTokenFor` | POS.Application/Services/UserApplication.cs:123-148 | The private token builder issues what `IssueToken` specifies: the built token, signed with Jwt:Secret. Its calls are exactly `IssuingTrace`: the ambient reads building made before it finished or threw and, when a token was built, the signing call last. A missing or empty secret or a missing email or user name makes no call at all; a success makes two GUID reads, two clock reads and one signing call. |
| `UserApplication.RegisterUser` | POS.Application/Services/UserApplication.cs:74-121 | Validation comes first. An invalid request gets MESSAGE_VALIDATE and the validator's errors, and no other collaborator is called. SaveFile(Users, image) is called exactly when an image is present and validation, mapping and hashing succeeded. RegisterAsync is reached exactly when every earlier step succeeded, so an upload that throws prevents it. It receives `PreparedAccount`, and its call is preceded by exactly Validate, Map, Hash and (with an image) the upload. RegisterAsync's result is Data and IsSuccess, with MESSAGE_SAVE or MESSAGE_FAILED. When `RegistrationFault` names an exception (from the validator, mapping, hashing, the upload or the insert, whichever throws first), the response is IsSuccess false, Data false, MESSAGE_EXCEPTION and no errors, and the trace ends by logging that exception. Otherwise nothing is logged. The whole trace is fixed when a step after validation throws: the steps up to and including the failing one, then the log entry, and nothing else. The envelope invariant holds. |
| `UserApplication.PreparedAccount` | POS.Application/Services/UserApplication.cs:91-97 | The account handed to the insert is the mapped account with Password = HashPassword(request.Password). Its Image is the upload's address when there is an image, and the mapped image otherwise. Its id, user name and email are the mapped ones. |
| `Tokens.BuildToken` | POS.Application/Services/UserApplication.cs:123-145 | A token is produced exactly when all of these hold: the secret is present and non-empty; email and user name are present; Jwt:Expires parses as an Int32; and the first clock reading plus that many hours is inside the DateTime range and after the second reading. The token then has exactly six claims in the order NameId=Email, FamilyName=UserName, GivenName=Email, UniqueName=Id as text, Jti=first GUID, Iat=second GUID (declared Integer64). Issuer and audience are both Jwt:Issuer. Expiry is the first clock reading plus Jwt:Expires hours, not-before is the second reading, and not-before < expiry. A missing secret or a missing email or user name throws before any GUID is drawn; with a usable secret, the missing email or user name throws ArgumentNull. After the two GUIDs and the first clock reading, a missing Jwt:Expires throws ArgumentNull, text that is not an Int32 throws what int.Parse throws, and an expiry past the DateTime range throws ArgumentOutOfRange; after the second clock reading, a not-before time at or after the expiry throws Argument. |
| `Tokens.ClaimsCarryAccount` | POS.Application/Services/UserApplication.cs:129-137 | In the claim list, NameId and GivenName give the email and FamilyName gives the user name. Jti and Iat give the two GUIDs. |
| `Tokens.UniqueNameIsAccountId` | POS.Application/Services/UserApplication.cs:134 | The UniqueName claim is the account id's text, and that text parses back to the id. |
| `Tokens.ClaimValueAt` | POS.Application/Services/UserApplication.cs:129-137 | A claim lookup by type returns the value of the first claim of that type. |
| `Tokens.GuidIsNotInteger` | POS.Application/Services/UserApplication.cs:136 | GUID text is not the integer text of a non-negative whole number of seconds, which an Integer64 iat claim would hold, and integer parsing rejects it with a format error. |
| `Tokens.IssuedTokenClaims` | POS.Application/Services/UserApplication.cs:129-145 | In every issued token, the UniqueName claim parses back to the account id and NameId is the email. The Iat claim is the second GUID, which is not the integer text of a whole number of seconds when it has the canonical GUID text form. |
| `Tokens.NonPositiveExpiryRefused` | POS.Application/Services/UserApplication.cs:139-145 | When Jwt:Expires parses to zero or fewer hours and the second clock reading is not earlier than the first, no token is built. |
| `Runtime.ParseIntegerText` | POS.Application/Services/UserApplication.cs:143 | `int.Parse` of text made of white space, an optional `+` or `-`, one or more digits and white space returns the signed value of the digits when it is inside Int32, and throws Overflow otherwise. |
| `Runtime.ParseMalformed` | POS.Application/Services/UserApplication.cs:143 | `int.Parse` of text that cannot be split into those four parts throws Format. |
| `Runtime.Int32ToString` | POS.Application/Services/UserApplication.cs:134 | `Id.ToString()` starts with '-' exactly for negative ids, followed by a non-empty run of digits with no leading zero; the run starts with '0' only for the id 0, whose text is "0". |
| `Runtime.ParseInt32OfToString` | POS.Application/Services/UserApplication.cs:134 | Parsing the text `Int32.ToString` produces gives back the same number. |
| `Runtime.DecimalRoundTrip` | POS.Application/Services/UserApplication.cs:134 | The decimal digits of a natural number denote that number. |
| `Runtime.AddHours` | POS.Application/Services/UserApplication.cs:143 | Adding whole hours succeeds exactly when the result stays in the DateTime range, and then moves the time by hours × 36,000,000,000 ticks. Otherwise it throws ArgumentOutOfRange. |
| `Runtime.IsWhiteSpaceOnly` | POS.Application/Validators/Category/CategoryValidator.cs:17 | The white-space test behind NotEmpty holds exactly when every character is white space. |
| `CategoryValidator.Validate` | POS.Application/Validators/Category/CategoryValidator.cs:15-17 | The request is valid exactly when Name is present and has a non-white-space character. A null Name is invalid, and its first error is "El campo nombre no puede ser nulo.". A present Name that is empty or all white space gives exactly the error "El campo nombre no puede ser vacio.". A present Name never gets the null error. Every error is about Name. |
| `CategoryValidator.OnlyNameIsConstrained` | POS.Application/Validators/Category/CategoryValidator.cs:15-17 | Two requests with the same Name get the same verdict, whatever their other fields. |

## Left out

- BCrypt hashing and verification, AutoMapper, the Azure blob upload, the
  user repository (lookup and insert) and JWT serialisation with HMAC-SHA256
  signing (section 3.2 of RFC 7518) are foreign libraries. They are
  collaborator functions that may return anything or throw.
- The user validator's rules are not part of this model. The validator is a
  collaborator that returns a verdict or throws.
- The text of the ReplyMessage constants is not part of this model. The
  messages are distinct symbolic values.
- Async/await, WatchDog logging and configuration lookup are not modelled as
  such. A log call is a `Log` entry in the trace that carries the exception.
  Configuration is the `JwtConfig` parameter.
- The clock and GUID reads are not modelled as sources. Their values are
  parameters, with no assumed relation between the two clock readings.
- The response envelope and the mapped account are updated field by field
  in the source. They are fresh objects that nothing else references, so the
  model reassigns values and does not model aliasing.
- The request DTOs' other fields (authentication type, state, audit data) are
  not modelled. Only the mapper reads them.
- The signed token string and the encoding of `exp` and `nbf` as seconds in
  it are not modelled.
- `Runtime.ParseInt32`: it models the invariant culture's signs and white
  space. It leaves out the trailing NUL characters that .NET also accepts
  and culture-specific sign strings.
- `Runtime.Int32ToString`: it models the invariant culture's '-' sign. A
  current culture with a different negative sign (such as U+2212) is not
  modelled.
- `CategoryValidator.Validate`: for a null Name it promises only that the
  null error comes first. Whether the empty error follows depends on the
  cascade mode configured outside the shown code. The function itself lists
  both errors, which is FluentValidation's default.
- The unit of work (eager construction of repositories and storage,
  `SaveChanges` and `Dispose` delegating to the database context), the
  schema migration and the `Department` and `DocumentType` entities have no
  behaviour of their own here and are not part of this model.

=== FILE: category_validator.dfy ===
/** The rule set for category requests: the name must be present, and it
    must not be empty. */
module CategoryValidator {
  import opened Outcomes
  import opened Runtime
  import opened Validation

  /** A category request. Only the name is read by the rules; the remaining
      fields of the request travel in `other`, whatever they are. */
  datatype CategoryRequest<Other> = CategoryRequest(name: Option<string>, other: Other)

  const NameProperty: string := "Name"
  const NullMessage: string := "El campo nombre no puede ser nulo."
  const EmptyMessage: string := "El campo nombre no puede ser vacio."

  const NameIsNull := ValidationFailure(NameProperty, NullMessage, "NotNullValidator")
  const NameIsEmpty := ValidationFailure(NameProperty, EmptyMessage, "NotEmptyValidator")

  /** NotNull fails on a missing name. */
  predicate FailsNotNull(name: Option<string>) { name.None? }

  /** NotEmpty fails on a missing name and on text that is empty or white space only. */
  predicate FailsNotEmpty(name: Option<string>) {
    name.None? || IsWhiteSpaceOnly(name.value)
  }

  /** Runs the rule chain on Name: NotNull, then NotEmpty, collecting the
      failure of each rule in order. */
  function Validate<Other>(request: CategoryRequest<Other>): (r: ValidationResult)
    ensures r.IsValid() <==> request.name.Some? && exists i :: 0 <= i < |request.name.value| && !IsWhiteSpace(request.name.value[i])
    ensures request.name.None? ==> |r.errors| > 0 && r.errors[0] == NameIsNull
    ensures request.name.Some? && (forall i :: 0 <= i < |request.name.value| ==> IsWhiteSpace(request.name.value[i]))
         ==> r.errors == [NameIsEmpty]
    ensures request.name.Some? ==> NameIsNull !in r.errors
    ensures forall i :: 0 <= i < |r.errors| ==> r.errors[i].propertyName == NameProperty
  {
    var notNull := if FailsNotNull(request.name) then [NameIsNull] else [];
    var notEmpty := if FailsNotEmpty(request.name) then [NameIsEmpty] else [];
    ValidationResult(notNull + notEmpty)
  }

  /** Only the name decides the verdict: requests that agree on it get the same one. */
  lemma OnlyNameIsConstrained<Other>(a: CategoryRequest<Other>, b: CategoryRequest<Other>)
    requires a.name == b.name
    ensures Validate(a) == Validate(b)
  {
  }
}

=== FILE: outcomes.dfy ===
/** Values shared by every part of the model: nullable references and the
    outcome of a call that may throw. */
module Outcomes {

  /** A .NET reference that may be null. */
  datatype Option<+T> = None | Some(value: T)

  /** The exceptions the modelled code can raise or receive from a collaborator.
      Only their kind matters to the service: every one of them is caught. */
  datatype Fault =
    | ArgumentNull          // a null passed where a value is demanded
    | Argument              // an argument the callee refuses (empty key, bad lifetime)
    | ArgumentOutOfRange    // DateTime arithmetic outside its range
    | Format                // int.Parse on text that is not an integer
    | Overflow              // int.Parse on an integer outside Int32
    | External(message: string)  // anything a collaborator throws

  /** The result of one call: the value it returned, or the exception it threw. */
  datatype Outcome<+T> = Returned(value: T) | Threw(fault: Fault)
}

=== FILE: runtime.dfy ===
/** The few .NET primitives the service relies on, written out: 32-bit
    integers and their invariant-culture decimal text (Int32.ToString and
    int.Parse with NumberStyles.Integer), DateTime as a count of ticks, and
    char.IsWhiteSpace. */
module Runtime {
  import opened Outcomes

  const MinInt32: int := -0x8000_0000
  const MaxInt32: int := 0x7FFF_FFFF
  type Int32 = x: int | MinInt32 <= x <= MaxInt32

  // ---------------------------------------------------------------- characters

  predicate IsDigit(c: char) { '0' <= c <= '9' }

  function DigitValue(c: char): (d: nat)
    requires IsDigit(c)
    ensures d < 10
  {
    (c as int) - ('0' as int)
  }

  function DigitChar(d: nat): (c: char)
    requires d < 10
    ensures IsDigit(c) && DigitValue(c) == d
  {
    (('0' as int) + d) as char
  }

  predicate AllDigits(s: string) {
    forall i :: 0 <= i < |s| ==> IsDigit(s[i])
  }

  /** The white space int.Parse skips around a number: U+0009 to U+000D and U+0020. */
  predicate IsNumberWhite(c: char) {
    c == ' ' || '\t' <= c <= '\r'
  }

  /** char.IsWhiteSpace: the Unicode space separators, line and paragraph
      separators, U+0009 to U+000D, U+0085 and U+00A0. */
  predicate IsWhiteSpace(c: char) {
    var n := c as int;
    || n == 0x20 || 0x09 <= n <= 0x0D || n == 0x85 || n == 0xA0 || n == 0x1680
    || 0x2000 <= n <= 0x200A || n == 0x2028 || n == 0x2029 || n == 0x202F
    || n == 0x205F || n == 0x3000
  }

  /** string.IsNullOrWhiteSpace for a non-null string, by walking the text. */
  function IsWhiteSpaceOnly(s: string): (r: bool)
    ensures r <==> forall i :: 0 <= i < |s| ==> IsWhiteSpace(s[i])
  {
    if s == [] then true
    else IsWhiteSpace(s[0]) && IsWhiteSpaceOnly(s[1..])
  }

  // ---------------------------------------------------- decimal text of numbers

  /** The decimal digits of n, most significant first, without leading zeros. */
  function Decimal(n: nat): (s: string)
    ensures |s| > 0 && AllDigits(s)
    ensures s[0] == '0' <==> n == 0
    ensures |s| > 1 ==> s[0] != '0'
    decreases n
  {
    if n < 10 then [DigitChar(n)] else Decimal(n / 10) + [DigitChar(n % 10)]
  }

  /** The number a run of decimal digits denotes. */
  function DecimalValue(s: string): (v: nat)
    requires AllDigits(s)
    decreases |s|
  {
    if s == [] then 0 else DecimalValue(s[..|s| - 1]) * 10 + DigitValue(s[|s| - 1])
  }

  /** Int32.ToString() in the invariant culture: a '-' for a negative number,
      then the digits of its magnitude without leading zeros. */
  function Int32ToString(n: Int32): (s: string)
    ensures |s| > 0
    ensures s[0] == '-' <==> n < 0
    ensures var digits := if n < 0 then s[1..] else s;
      && |digits| > 0 && AllDigits(digits)
      && (digits[0] == '0' <==> n == 0)
      && (|digits| > 1 ==> digits[0] != '0')
  {
    var i: int := n;
    if i < 0 then "-" + Decimal(-i) else Decimal(i)
  }

  /** How many characters at the front of s are number white space. */
  function LeadingWhite(s: string): (n: nat)
    ensures n <= |s|
    ensures forall i :: 0 <= i < n ==> IsNumberWhite(s[i])
    ensures n < |s| ==> !IsNumberWhite(s[n])
  {
    if s == [] || !IsNumberWhite(s[0]) then 0 else 1 + LeadingWhite(s[1..])
  }

  /** How many characters at the front of s are decimal digits. */
  function LeadingDigits(s: string): (n: nat)
    ensures n <= |s|
    ensures AllDigits(s[..n])
    ensures n < |s| ==> !IsDigit(s[n])
  {
    if s == [] || !IsDigit(s[0]) then 0
    else
      var k := LeadingDigits(s[1..]);
      assert s[..1 + k] == [s[0]] + s[1..][..k];
      1 + k
  }

  /** int.Parse(s) with NumberStyles.Integer: optional leading white space,
      an optional '+' or '-', at least one digit, optional trailing white
      space. Text of any other shape throws a FormatException; a well-formed
      number outside Int32 throws an OverflowException. */
  function ParseInt32(s: string): (r: Outcome<Int32>)
    ensures r.Returned? ==> exists k :: 0 <= k < |s| && IsDigit(s[k])
    ensures r.Threw? ==> r.fault == Format || r.fault == Overflow
  {
    var w := LeadingWhite(s);
    match ParseSigned(s[w..])
    case Number(v, k) =>
      assert s[w..][k] == s[w + k];
      assert 0 <= w + k < |s| && IsDigit(s[w + k]);
      Returned(v)
    case Failed(f) => Threw(f)
  }

  /** What ParseSigned reports: the number and where its first digit stands,
      or the exception. */
  datatype Parsed = Number(value: Int32, firstDigit: nat) | Failed(fault: Fault)

  /** The number that starts right after the leading white space. */
  function ParseSigned(rest: string): (r: Parsed)
    ensures r.Number? ==> r.firstDigit < |rest| && IsDigit(rest[r.firstDigit])
    ensures r.Failed? ==> r.fault == Format || r.fault == Overflow
  {
    if |rest| > 0 && (rest[0] == '-' || rest[0] == '+') then
      match ParseMagnitude(rest[1..], rest[0] == '-')
      case Number(v, k) => Number(v, k + 1)
      case Failed(f) => Failed(f)
    else ParseMagnitude(rest, false)
  }

  /** The digits after the sign, followed by nothing but white space. */
  function ParseMagnitude(body: string, negative: bool): (r: Parsed)
    ensures r.Number? ==> r.firstDigit == 0 && |body| > 0 && IsDigit(body[0])
    ensures r.Failed? ==> r.fault == Format || r.fault == Overflow
  {
    var digits := LeadingDigits(body);
    var tail := body[digits..];
    if digits == 0 || LeadingWhite(tail) != |tail| then Failed(Format)
    else
      assert IsDigit(body[..digits][0]);
      var v := Signed(negative, DecimalValue(body[..digits]));
      if v < MinInt32 || MaxInt32 < v then Failed(Overflow) else Number(v, 0)
  }

  function Signed(negative: bool, magnitude: nat): int {
    if negative then -(magnitude as int) else magnitude
  }

  lemma {:induction false} DecimalRoundTrip(n: nat)
    ensures DecimalValue(Decimal(n)) == n
    decreases n
  {
    var s := Decimal(n);
    if n >= 10 {
      DecimalRoundTrip(n / 10);
      assert s[..|s| - 1] == Decimal(n / 10);
    }
  }

  predicate AllNumberWhite(s: string) {
    forall i :: 0 <= i < |s| ==> IsNumberWhite(s[i])
  }

  /** The text int.Parse accepts with NumberStyles.Integer, in four parts:
      leading white space, an optional sign, one or more digits, trailing
      white space. */
  predicate IntegerText(lead: string, sign: string, digits: string, trail: string) {
    && AllNumberWhite(lead) && AllNumberWhite(trail)
    && (sign == "" || sign == "+" || sign == "-")
    && |digits| > 0 && AllDigits(digits)
  }

  lemma {:induction false} LeadingWhiteOf(lead: string, rest: string)
    requires AllNumberWhite(lead)
    requires rest == [] || !IsNumberWhite(rest[0])
    ensures LeadingWhite(lead + rest) == |lead|
    decreases |lead|
  {
    if lead != [] {
      assert (lead + rest)[1..] == lead[1..] + rest;
      LeadingWhiteOf(lead[1..], rest);
    } else {
      assert lead + rest == rest;
    }
  }

  lemma {:induction false} LeadingDigitsOf(digits: string, rest: string)
    requires AllDigits(digits)
    requires rest == [] || !IsDigit(rest[0])
    ensures LeadingDigits(digits + rest) == |digits|
    decreases |digits|
  {
    if digits != [] {
      assert (digits + rest)[1..] == digits[1..] + rest;
      LeadingDigitsOf(digits[1..], rest);
    } else {
      assert digits + rest == rest;
    }
  }

  /** Digits followed by white space, read with the given sign. */
  lemma MagnitudeOf(digits: string, trail: string, negative: bool)
    requires |digits| > 0 && AllDigits(digits) && AllNumberWhite(trail)
    ensures var v := Signed(negative, DecimalValue(digits));
      ParseMagnitude(digits + trail, negative)
      == if MinInt32 <= v <= MaxInt32 then Number(v, 0) else Failed(Overflow)
  {
    var body := digits + trail;
    LeadingDigitsOf(digits, trail);
    assert body[..|digits|] == digits;
    assert body[|digits|..] == trail;
    LeadingWhiteOf(trail, []);
    assert trail + [] == trail;
  }

  /** The number after the leading white space: an optional sign, digits, white space. */
  lemma SignedOf(sign: string, digits: string, trail: string)
    requires sign == "" || sign == "+" || sign == "-"
    requires |digits| > 0 && AllDigits(digits) && AllNumberWhite(trail)
    ensures var v := Signed(sign == "-", DecimalValue(digits));
      ParseSigned(sign + digits + trail)
      == if MinInt32 <= v <= MaxInt32 then Number(v, |sign|) else Failed(Overflow)
  {
    var body := digits + trail;
    assert sign + digits + trail == sign + body;
    MagnitudeOf(digits, trail, sign == "-");
    if sign == "" {
      UnsignedIs(body);
    } else {
      SignIs(sign, body);
    }
  }

  lemma UnsignedIs(body: string)
    requires |body| > 0 && IsDigit(body[0])
    ensures ParseSigned("" + body) == ParseMagnitude(body, false)
  {
    assert "" + body == body;
  }

  lemma SignIs(sign: string, body: string)
    requires sign == "+" || sign == "-"
    ensures ParseSigned(sign + body) ==
      match ParseMagnitude(body, sign == "-")
      case Number(v, k) => Number(v, k + 1)
      case Failed(f) => Failed(f)
  {
    assert (sign + body)[0] == sign[0];
    assert (sign + body)[1..] == body;
  }

  /** int.Parse of well-formed text gives the signed value of its digits,
      or an OverflowException when that value is outside Int32. */
  lemma ParseIntegerText(lead: string, sign: string, digits: string, trail: string)
    requires IntegerText(lead, sign, digits, trail)
    ensures var v := Signed(sign == "-", DecimalValue(digits));
      ParseInt32(lead + sign + digits + trail)
      == if MinInt32 <= v <= MaxInt32 then Returned(v) else Threw(Overflow)
  {
    var rest := sign + digits + trail;
    var s := lead + sign + digits + trail;
    assert s == lead + rest;
    assert !IsNumberWhite(rest[0]) by {
      assert rest[0] == (if sign == "" then digits[0] else sign[0]);
    }
    LeadingWhiteOf(lead, rest);
    assert s[|lead|..] == rest;
    SignedOf(sign, digits, trail);
  }

  /** Text int.Parse does not reject as malformed splits into the four parts. */
  lemma ShapeOfParsed(s: string) returns (lead: string, sign: string, digits: string, trail: string)
    requires ParseInt32(s) != Threw(Format)
    ensures IntegerText(lead, sign, digits, trail)
    ensures s == lead + sign + digits + trail
  {
    var w := LeadingWhite(s);
    var rest := s[w..];
    var k := if |rest| > 0 && (rest[0] == '-' || rest[0] == '+') then 1 else 0;
    var body := rest[k..];
    var n := LeadingDigits(body);
    lead, sign, digits, trail := s[..w], rest[..k], body[..n], body[n..];
    assert ParseMagnitude(body, k == 1 && rest[0] == '-') != Failed(Format) by {
      assert ParseSigned(rest) != Failed(Format);
    }
    assert n > 0 && LeadingWhite(trail) == |trail|;
    assert sign == "" || sign == "+" || sign == "-" by {
      if k == 1 {
        assert sign == [rest[0]];
      }
    }
    Reassembled(s, w, k, n);
  }

  /** A text cut three times is the concatenation of its four pieces. */
  lemma Reassembled(s: string, w: nat, k: nat, n: nat)
    requires w <= |s| && k <= |s| - w && n <= |s| - w - k
    ensures s == s[..w] + s[w..][..k] + s[w..][k..][..n] + s[w..][k..][n..]
  {
    var rest := s[w..];
    var body := rest[k..];
    assert body == body[..n] + body[n..];
    assert rest == rest[..k] + body;
    assert s == s[..w] + rest;
  }

  /** int.Parse of text of any other shape throws a FormatException. */
  lemma ParseMalformed(s: string)
    requires forall lead, sign, digits, trail ::
      IntegerText(lead, sign, digits, trail) ==> s != lead + sign + digits + trail
    ensures ParseInt32(s) == Threw(Format)
  {
    if ParseInt32(s) != Threw(Format) {
      var lead, sign, digits, trail := ShapeOfParsed(s);
      assert false;
    }
  }

  /** The text Int32.ToString produces is read back by int.Parse as the same number. */
  lemma {:induction false} ParseInt32OfToString(n: Int32)
    ensures ParseInt32(Int32ToString(n)) == Returned(n)
  {
    var i: int := n;
    var m: nat := if i < 0 then -i else i;
    var sign: string := if i < 0 then "-" else "";
    var digits := Decimal(m);
    var text := [] + sign + digits + [];
    assert ParseInt32(text) == Returned(n) by {
      DecimalRoundTrip(m);
      ParseIntegerText([], sign, digits, []);
    }
    assert Int32ToString(n) == text;
  }

  // ------------------------------------------------------------------ DateTime

  /** DateTime as its tick count: 100-nanosecond intervals since 0001-01-01. */
  const MaxTicks: int := 3_155_378_975_999_999_999
  const TicksPerHour: int := 36_000_000_000
  type Ticks = t: int | 0 <= t <= MaxTicks

  /** DateTime.AddHours with a whole number of hours: throws when the result
      leaves the range of DateTime. */
  function AddHours(t: Ticks, hours: int): (r: Outcome<Ticks>)
    ensures r.Returned? <==> 0 <= t + hours * TicksPerHour <= MaxTicks
    ensures r.Returned? ==> r.value - t == hours * TicksPerHour
    ensures r.Threw? ==> r.fault == ArgumentOutOfRange
  {
    var u := t + hours * TicksPerHour;
    if 0 <= u <= MaxTicks then Returned(u) else Threw(ArgumentOutOfRange)
  }
}

=== FILE: token.dfy ===
/** The claim set and lifetime of the JSON Web Token (RFC 7519) issued to an
    account after a successful login. The signed, serialised string is left
    to the signing collaborator; this module builds what it signs. */
module Tokens {
  import opened Outcomes
  import opened Runtime

  /** The account record the token describes (the fields the token reads,
      and the two registration fills in). */
  datatype User = User(
    id: Int32,
    userName: Option<string>,
    email: Option<string>,
    password: Option<string>,
    image: Option<string>)

  /** The claim types used: nameid, family_name, given_name, unique_name,
      and the registered jti and iat of section 4.1 of RFC 7519. */
  datatype ClaimType = NameId | FamilyName | GivenName | UniqueName | Jti | Iat

  /** The declared value type of a claim: the default string type, or 64-bit integer. */
  datatype ClaimValueType = StringValue | Integer64Value

  datatype Claim = Claim(claimType: ClaimType, value: string, valueType: ClaimValueType)

  /** The unsigned token: issuer, audience, claims and lifetime. */
  datatype SecurityToken = SecurityToken(
    issuer: Option<string>,
    audience: Option<string>,
    claims: seq<Claim>,
    notBefore: Ticks,
    expires: Ticks)

  /** The configuration entries Jwt:Secret, Jwt:Issuer and Jwt:Expires, each possibly absent. */
  datatype JwtConfig = JwtConfig(secret: Option<string>, issuer: Option<string>, expires: Option<string>)

  /** The ambient values read while the token is built: two fresh GUIDs (as
      text) and two readings of the UTC clock, in the order they are taken. */
  datatype Readings = Readings(jtiGuid: string, iatGuid: string, expiresClock: Ticks, notBeforeClock: Ticks)

  /** A read of ambient state made while building. */
  datatype Read = NewGuid | ReadClock

  /** What building produced, and which ambient reads it made before it
      finished or threw. */
  datatype Built = Built(token: Outcome<SecurityToken>, draws: seq<Read>)

  const AllReads: seq<Read> := [NewGuid, NewGuid, ReadClock, ReadClock]

  /** The claims of the token, in the order they are listed. */
  function Claims(user: User, env: Readings): (cs: seq<Claim>)
    requires user.email.Some? && user.userName.Some?
  {
    [ Claim(NameId, user.email.value, StringValue),
      Claim(FamilyName, user.userName.value, StringValue),
      Claim(GivenName, user.email.value, StringValue),
      Claim(UniqueName, Int32ToString(user.id), StringValue),
      Claim(Jti, env.jtiGuid, StringValue),
      Claim(Iat, env.iatGuid, Integer64Value) ]
  }

  /** Builds the token for an account. Steps, each of which can throw:
      the signing key from Jwt:Secret (absent: ArgumentNull; empty: Argument),
      the claims (a missing email or user name: ArgumentNull, before any GUID
      is drawn), the expiry as a clock reading plus Jwt:Expires hours (absent:
      ArgumentNull; not an Int32: Format or Overflow; past the DateTime range:
      ArgumentOutOfRange), the not-before time as a second clock reading, and
      the token itself, which refuses a not-before time at or after the expiry
      (Argument). */
  function BuildToken(user: User, config: JwtConfig, env: Readings): (r: Built)
    ensures r.token.Returned? <==>
      && config.secret.Some? && |config.secret.value| > 0
      && user.email.Some? && user.userName.Some?
      && config.expires.Some? && ParseInt32(config.expires.value).Returned?
      && env.notBeforeClock < env.expiresClock + ParseInt32(config.expires.value).value * TicksPerHour <= MaxTicks
    ensures r.token.Returned? ==>
      var t := r.token.value;
      && t.claims == Claims(user, env)
      && |t.claims| == 6
      && [t.claims[0].claimType, t.claims[1].claimType, t.claims[2].claimType,
          t.claims[3].claimType, t.claims[4].claimType, t.claims[5].claimType]
         == [NameId, FamilyName, GivenName, UniqueName, Jti, Iat]
      && t.claims[0].value == t.claims[2].value == user.email.value
      && t.claims[1].value == user.userName.value
      && t.claims[3].value == Int32ToString(user.id)
      && t.claims[4].value == env.jtiGuid
      && t.claims[5].value == env.iatGuid && t.claims[5].valueType == Integer64Value
      && t.issuer == t.audience == config.issuer
      && t.expires == env.expiresClock + ParseInt32(config.expires.value).value * TicksPerHour
      && t.notBefore == env.notBeforeClock
      && t.notBefore < t.expires
      && r.draws == AllReads
    ensures config.secret.None? ==> r.token == Threw(ArgumentNull) && r.draws == []
    ensures config.secret == Some("") ==> r.token == Threw(Argument) && r.draws == []
    ensures user.email.None? || user.userName.None? ==> r.token.Threw? && r.draws == []
    ensures config.secret.Some? && |config.secret.value| > 0 && (user.email.None? || user.userName.None?) ==>
      r == Built(Threw(ArgumentNull), [])
    // the failures after the claims: Jwt:Expires missing or not an Int32, the
    // expiry past the DateTime range, or a lifetime the token refuses
    ensures config.secret.Some? && |config.secret.value| > 0 && user.email.Some? && user.userName.Some? ==>
      var parsed := if config.expires.Some? then ParseInt32(config.expires.value) else Threw(ArgumentNull);
      && (parsed.Threw? ==> r == Built(Threw(parsed.fault), [NewGuid, NewGuid, ReadClock]))
      && (parsed.Returned? && AddHours(env.expiresClock, parsed.value).Threw? ==>
            r == Built(Threw(ArgumentOutOfRange), [NewGuid, NewGuid, ReadClock]))
      && (parsed.Returned? && AddHours(env.expiresClock, parsed.value).Returned? &&
          env.notBeforeClock >= AddHours(env.expiresClock, parsed.value).value ==>
            r == Built(Threw(Argument), AllReads))
    ensures r.draws <= AllReads
  {
    if config.secret.None? then Built(Threw(ArgumentNull), [])
    else if |config.secret.value| == 0 then Built(Threw(Argument), [])
    else if user.email.None? || user.userName.None? then Built(Threw(ArgumentNull), [])
    else
      var claims := Claims(user, env);
      var afterGuids := [NewGuid, NewGuid, ReadClock];
      if config.expires.None? then Built(Threw(ArgumentNull), afterGuids)
      else
        match ParseInt32(config.expires.value)
        case Threw(f) => Built(Threw(f), afterGuids)
        case Returned(hours) =>
          match AddHours(env.expiresClock, hours)
          case Threw(f) => Built(Threw(f), afterGuids)
          case Returned(expires) =>
            if env.notBeforeClock >= expires then Built(Threw(Argument), AllReads)
            else Built(Returned(SecurityToken(config.issuer, config.issuer, claims, env.notBeforeClock, expires)), AllReads)
  }

  /** The value of the first claim of the given type in a claim list. */
  function ClaimValue(claims: seq<Claim>, ct: ClaimType): (v: Option<string>)
  {
    if claims == [] then None
    else if claims[0].claimType == ct then Some(claims[0].value)
    else ClaimValue(claims[1..], ct)
  }

  /** The text of Guid.ToString(): 32 lower-case hexadecimal digits in groups
      of 8, 4, 4, 4 and 12, separated by hyphens. */
  predicate IsGuidText(s: string) {
    && |s| == 36
    && (forall i :: 0 <= i < 36 ==> (s[i] == '-' <==> i in {8, 13, 18, 23}))
    && (forall i :: 0 <= i < 36 && s[i] != '-' ==> IsDigit(s[i]) || 'a' <= s[i] <= 'f')
  }

  /** The text of a non-negative whole number, as an Integer64 claim holding
      seconds since the epoch would carry it: the integer form of a
      NumericDate (section 2 of RFC 7519), as the iat claim conventionally
      holds it. */
  predicate IsNumericDateText(s: string) {
    |s| > 0 && AllDigits(s)
  }

  /** The first claim of a type decides its value. */
  lemma {:induction false} ClaimValueAt(claims: seq<Claim>, k: nat, ct: ClaimType)
    requires k < |claims| && claims[k].claimType == ct
    requires forall j :: 0 <= j < k ==> claims[j].claimType != ct
    ensures ClaimValue(claims, ct) == Some(claims[k].value)
  {
    if k > 0 {
      ClaimValueAt(claims[1..], k - 1, ct);
    }
  }

  /** The claims carry the account's email and user name and the two GUIDs. */
  lemma ClaimsCarryAccount(user: User, env: Readings)
    requires user.email.Some? && user.userName.Some?
    ensures var claims := Claims(user, env);
      && ClaimValue(claims, NameId) == ClaimValue(claims, GivenName) == user.email
      && ClaimValue(claims, FamilyName) == user.userName
      && ClaimValue(claims, Jti) == Some(env.jtiGuid)
      && ClaimValue(claims, Iat) == Some(env.iatGuid)
  {
    var claims := Claims(user, env);
    ClaimValueAt(claims, 0, NameId);
    ClaimValueAt(claims, 1, FamilyName);
    ClaimValueAt(claims, 2, GivenName);
    ClaimValueAt(claims, 4, Jti);
    ClaimValueAt(claims, 5, Iat);
  }

  /** The UniqueName claim carries the account id in a form that reads back
      as that id. */
  lemma UniqueNameIsAccountId(user: User, env: Readings)
    requires user.email.Some? && user.userName.Some?
    ensures ClaimValue(Claims(user, env), UniqueName) == Some(Int32ToString(user.id))
    ensures ParseInt32(Int32ToString(user.id)) == Returned(user.id)
  {
    ClaimValueAt(Claims(user, env), 3, UniqueName);
    ParseInt32OfToString(user.id);
  }

  /** A GUID's text is not integer text, and integer parsing rejects it as malformed. */
  lemma GuidIsNotInteger(g: string)
    requires IsGuidText(g)
    ensures !IsNumericDateText(g)
    ensures ParseInt32(g) == Threw(Format)
  {
    assert g[8] == '-';
    assert !IsNumberWhite(g[0]) && LeadingWhite(g) == 0 && g[0..] == g;
    var n := LeadingDigits(g);
    if n > 0 {
      var tail := g[n..];
      assert tail[0] == g[n];
      assert !IsNumberWhite(tail[0]);
    }
  }

  /** Every issued token identifies its account through its claims, and its
      iat claim, declared a 64-bit integer, holds a GUID that is not a
      whole number of seconds when the GUID has the canonical text form. */
  lemma IssuedTokenClaims(user: User, config: JwtConfig, env: Readings)
    requires BuildToken(user, config, env).token.Returned?
    ensures var claims := BuildToken(user, config, env).token.value.claims;
      && ClaimValue(claims, UniqueName).Some?
      && ParseInt32(ClaimValue(claims, UniqueName).value) == Returned(user.id)
      && ClaimValue(claims, NameId) == user.email
      && ClaimValue(claims, Iat) == Some(env.iatGuid)
      && (IsGuidText(env.iatGuid) ==> !IsNumericDateText(env.iatGuid))
  {
    ClaimsCarryAccount(user, env);
    UniqueNameIsAccountId(user, env);
    if IsGuidText(env.iatGuid) {
      GuidIsNotInteger(env.iatGuid);
    }
  }

  /** A Jwt:Expires of zero or fewer hours yields no token whenever the
      second clock reading is not earlier than the first: the not-before
      time is then not before the expiry. */
  lemma NonPositiveExpiryRefused(user: User, config: JwtConfig, env: Readings)
    requires config.expires.Some? && ParseInt32(config.expires.value).Returned?
    requires ParseInt32(config.expires.value).value <= 0
    requires env.expiresClock <= env.notBeforeClock
    ensures BuildToken(user, config, env).token.Threw?
  {
  }
}

=== FILE: user_application.dfy ===
/** The authentication service: login, which checks a user name and password
    and issues a token, and registration, which validates a request, hashes
    the password, stores the optional image and inserts the account. Every
    collaborator (the repositories and blob storage of the unit of work, the
    mapper, the validator, password hashing, token signing) is a given
    function that returns a value or throws; the clock and GUID reads of
    token building are given values. Each operation returns the response
    envelope together with the trace of collaborator calls it made. */
module UserApplication {
  import opened Outcomes
  import opened Runtime
  import opened Validation
  import opened Tokens

  /** The reply messages the service sets. */
  datatype ReplyMessage =
    | MessageToken | MessageTokenError | MessageException
    | MessageValidate | MessageSave | MessageFailed

  /** The response envelope: success flag, payload, message, field errors. */
  datatype BaseResponse<T> = BaseResponse(
    isSuccess: bool,
    data: T,
    message: Option<ReplyMessage>,
    errors: Option<seq<ValidationFailure>>)

  /** A freshly constructed envelope: every field at its default. */
  function NewResponse<T>(zero: T): BaseResponse<T> {
    BaseResponse(false, zero, None, None)
  }

  /** The envelope's invariant: a success carries a payload and no field
      errors; a failure carries the payload type's zero value. */
  predicate WellFormed<T(==)>(r: BaseResponse<T>, zero: T) {
    && (r.isSuccess ==> r.data != zero && r.errors.None?)
    && (!r.isSuccess ==> r.data == zero)
  }

  /** The catch block of both operations: report a generic failure, keep the
      other fields as they were. */
  function Caught<T>(r: BaseResponse<T>): (c: BaseResponse<T>)
    ensures !c.isSuccess && c.message == Some(MessageException)
    ensures c.data == r.data && c.errors == r.errors
  {
    r.(isSuccess := false, message := Some(MessageException))
  }

  datatype TokenRequest = TokenRequest(userName: Option<string>, password: Option<string>)

  /** An uploaded file. */
  datatype FormFile = FormFile(fileName: string, content: seq<bv8>)

  datatype UserRequest = UserRequest(
    userName: Option<string>,
    password: Option<string>,
    email: Option<string>,
    image: Option<FormFile>)

  /** The blob containers; user images go to the users container. */
  datatype Container = Users

  /** One call to a collaborator, with its arguments. */
  datatype Call =
    | AccountByUserName(userName: Option<string>)
    | Verify(password: Option<string>, hash: Option<string>)
    | Drew(read: Read)
    | WriteToken(token: SecurityToken)
    | ValidateUser(request: UserRequest)
    | MapUser(request: UserRequest)
    | HashPassword(password: Option<string>)
    | SaveFile(container: Container, file: FormFile)
    | RegisterAsync(account: User)
    | Log(fault: Fault)

  /** The collaborators of the service and its configuration. */
  datatype Services = Services(
    accountByUserName: Option<string> -> Outcome<Option<User>>,
    verify: (Option<string>, Option<string>) -> Outcome<bool>,
    writeToken: (SecurityToken, string) -> Outcome<string>,
    validate: UserRequest -> Outcome<ValidationResult>,
    mapUser: UserRequest -> Outcome<User>,
    hashPassword: Option<string> -> Outcome<string>,
    saveFile: (Container, FormFile) -> Outcome<string>,
    registerAsync: User -> Outcome<bool>,
    configuration: JwtConfig)

  /** The ambient reads of token building, as trace entries. */
  function DrewAll(draws: seq<Read>): (cs: seq<Call>)
    ensures |cs| == |draws|
    ensures forall i :: 0 <= i < |cs| ==> cs[i] == Drew(draws[i])
  {
    seq(|draws|, i requires 0 <= i < |draws| => Drew(draws[i]))
  }

  /** The whole of token issuing for an account: build, then sign with Jwt:Secret. */
  function IssueToken(app: Services, env: Readings, account: User): (r: Outcome<string>)
    ensures r.Returned? ==> BuildToken(account, app.configuration, env).token.Returned?
  {
    var built := BuildToken(account, app.configuration, env);
    if built.token.Threw? then Threw(built.token.fault)
    else app.writeToken(built.token.value, app.configuration.secret.value)
  }

  /** The account the login found, if the lookup returned one. */
  function Found(app: Services, request: TokenRequest): Option<User> {
    var lookup := app.accountByUserName(request.userName);
    if lookup.Returned? then lookup.value else None
  }

  /** The password check of the login returned true. */
  predicate PasswordAccepted(app: Services, request: TokenRequest) {
    var account := Found(app, request);
    account.Some? && app.verify(request.password, account.value.password) == Returned(true)
  }

  /** The exception a login runs into, if any: from the lookup, from the
      password check of a found account, or from issuing the token once the
      password was accepted. */
  function LoginFault(app: Services, env: Readings, request: TokenRequest): Option<Fault> {
    var lookup := app.accountByUserName(request.userName);
    if lookup.Threw? then Some(lookup.fault)
    else if lookup.value.None? then None
    else
      var verified := app.verify(request.password, lookup.value.value.password);
      if verified.Threw? then Some(verified.fault)
      else if !verified.value then None
      else
        var issued := IssueToken(app, env, lookup.value.value);
        if issued.Threw? then Some(issued.fault) else None
  }

  predicate EndsInLog(trace: seq<Call>) {
    |trace| > 0 && trace[|trace| - 1].Log?
  }

  /** True of the calls token issuing makes: ambient reads and, last, the signing. */
  predicate IssuingCalls(calls: seq<Call>) {
    forall i :: 0 <= i < |calls| ==> calls[i].Drew? || (calls[i].WriteToken? && i == |calls| - 1)
  }

  /** The calls token issuing makes for an account: the ambient reads that
      building made before it finished or threw and, when a token was built,
      the signing call. */
  function IssuingTrace(config: JwtConfig, env: Readings, account: User): (calls: seq<Call>)
    ensures IssuingCalls(calls)
    ensures BuildToken(account, config, env).token.Returned? ==>
      calls == DrewAll(AllReads) + [WriteToken(BuildToken(account, config, env).token.value)]
    ensures config.secret.None? || config.secret == Some("") || account.email.None? || account.userName.None? ==>
      calls == []
  {
    var built := BuildToken(account, config, env);
    DrewAll(built.draws) + (if built.token.Returned? then [WriteToken(built.token.value)] else [])
  }

  /** The calls a login makes, in order: the lookup; for a found account the
      password check; once the password is accepted, the calls of token
      issuing; and last, a log entry for the exception that stopped it. */
  function LoginTrace(app: Services, env: Readings, request: TokenRequest): (trace: seq<Call>)
    ensures |trace| > 0 && trace[0] == AccountByUserName(request.userName)
  {
    var lookup := app.accountByUserName(request.userName);
    if lookup.Threw? then [AccountByUserName(request.userName), Log(lookup.fault)]
    else if lookup.value.None? then [AccountByUserName(request.userName)]
    else
      var account := lookup.value.value;
      var check := Verify(request.password, account.password);
      var verified := app.verify(request.password, account.password);
      if verified.Threw? then [AccountByUserName(request.userName), check, Log(verified.fault)]
      else if !verified.value then [AccountByUserName(request.userName), check]
      else
        var issued := IssueToken(app, env, account);
        var issuing := [AccountByUserName(request.userName), check] + IssuingTrace(app.configuration, env, account);
        if issued.Threw? then issuing + [Log(issued.fault)] else issuing
  }

  /** The whole trace of a login that stops at the lookup. */
  lemma LookupPaths(app: Services, env: Readings, request: TokenRequest)
    ensures app.accountByUserName(request.userName).Threw? ==>
      LoginTrace(app, env, request) ==
        [AccountByUserName(request.userName), Log(app.accountByUserName(request.userName).fault)]
    ensures app.accountByUserName(request.userName) == Returned(None) ==>
      LoginTrace(app, env, request) == [AccountByUserName(request.userName)]
  {
  }

  /** The whole trace of a login that finds the account: the lookup, the
      password check, then the log entry of a check that throws, nothing
      more for a wrong password, and the calls of token issuing (with the
      log entry when issuing throws) for an accepted one. */
  lemma FoundPaths(app: Services, env: Readings, request: TokenRequest)
    requires Found(app, request).Some?
    ensures var check := Verify(request.password, Found(app, request).value.password);
      var verified := app.verify(request.password, Found(app, request).value.password);
      var issuing := IssuingTrace(app.configuration, env, Found(app, request).value);
      var issued := IssueToken(app, env, Found(app, request).value);
      && (verified.Threw? ==>
            LoginTrace(app, env, request) == [AccountByUserName(request.userName), check, Log(verified.fault)])
      && (verified == Returned(false) ==>
            LoginTrace(app, env, request) == [AccountByUserName(request.userName), check])
      && (verified == Returned(true) && issued.Returned? ==>
            LoginTrace(app, env, request) == [AccountByUserName(request.userName), check] + issuing)
      && (verified == Returned(true) && issued.Threw? ==>
            LoginTrace(app, env, request) == [AccountByUserName(request.userName), check] + issuing + [Log(issued.fault)])
  {
  }

  /** The order a login keeps: the password is checked only against a found
      account's stored hash, right after the lookup; a token is signed only
      after the password was accepted; an exception is logged last, exactly
      when the login runs into one, and nothing is logged before. */
  lemma LoginCallOrder(app: Services, env: Readings, request: TokenRequest)
    ensures var trace := LoginTrace(app, env, request);
      && (forall i :: 0 <= i < |trace| && trace[i].Verify? ==>
            i == 1 && Found(app, request).Some? &&
            trace[i] == Verify(request.password, Found(app, request).value.password))
      && (forall i :: 0 <= i < |trace| && trace[i].WriteToken? ==> PasswordAccepted(app, request))
      && (forall i :: 0 <= i < |trace| - 1 ==> !trace[i].Log?)
      && (EndsInLog(trace) <==> LoginFault(app, env, request).Some?)
      && (LoginFault(app, env, request).Some? ==> trace[|trace| - 1] == Log(LoginFault(app, env, request).value))
  {
    LookupPaths(app, env, request);
    var account := Found(app, request);
    if account.Some? {
      FoundPaths(app, env, request);
      var issuing := IssuingTrace(app.configuration, env, account.value);
      assert forall i :: 0 <= i < |issuing| ==> !issuing[i].Log? && !issuing[i].Verify?;
    }
  }

  /** The private token builder of the service: build the claims and the
      lifetime, then sign the token with the key from Jwt:Secret. */
  method GenerateTokenFor(app: Services, env: Readings, account: User)
    returns (token: Outcome<string>, calls: seq<Call>)
    ensures token == IssueToken(app, env, account)
    ensures calls == IssuingTrace(app.configuration, env, account)
    ensures IssuingCalls(calls)
    ensures token.Returned? ==>
      calls == DrewAll(AllReads) + [WriteToken(BuildToken(account, app.configuration, env).token.value)]
  {
    var built := BuildToken(account, app.configuration, env);
    calls := DrewAll(built.draws);
    if built.token.Threw? {
      token := Threw(built.token.fault);
      return;
    }
    calls := calls + [WriteToken(built.token.value)];
    token := app.writeToken(built.token.value, app.configuration.secret.value);
  }

  /** Login: look the account up by user name, check the password against the
      stored hash, and issue a token when it matches. An unknown user name
      gives the token error message; a known one with a wrong password
      returns the envelope untouched; any exception gives the exception
      message and is logged. */
  method GenerateToken(app: Services, env: Readings, request: TokenRequest)
    returns (response: BaseResponse<Option<string>>, trace: seq<Call>)
    ensures WellFormed(response, None)
    // the calls made are those LoginTrace gives: LookupPaths and FoundPaths
    // spell them out path by path, LoginCallOrder gives the order they keep
    ensures trace == LoginTrace(app, env, request)
    // an unknown user: token error, and the password is never checked
    ensures app.accountByUserName(request.userName) == Returned(None) ==>
      response == BaseResponse(false, None, Some(MessageTokenError), None)
    // success exactly when the account exists, the password matches and a token is issued
    ensures response.isSuccess <==>
      PasswordAccepted(app, request) && IssueToken(app, env, Found(app, request).value).Returned?
    ensures response.isSuccess ==>
      && response.data == Some(IssueToken(app, env, Found(app, request).value).value)
      && response.message == Some(MessageToken)
    // a wrong password leaves every field of the envelope at its default
    ensures Found(app, request).Some? &&
            app.verify(request.password, Found(app, request).value.password) == Returned(false) ==>
      response == NewResponse(None)
    // any exception: generic message, no payload, and the exception logged last
    ensures response.message == Some(MessageException) <==> LoginFault(app, env, request).Some?
    ensures LoginFault(app, env, request).Some? ==>
      response == BaseResponse(false, None, Some(MessageException), None)
  {
    response := NewResponse(None);
    trace := [AccountByUserName(request.userName)];
    var lookup := app.accountByUserName(request.userName);
    if lookup.Threw? {
      response := Caught(response);
      trace := trace + [Log(lookup.fault)];
      return;
    }
    var account := lookup.value;
    if account.Some? {
      trace := trace + [Verify(request.password, account.value.password)];
      var verified := app.verify(request.password, account.value.password);
      if verified.Threw? {
        response := Caught(response);
        trace := trace + [Log(verified.fault)];
        return;
      }
      if verified.value {
        var signed, calls := GenerateTokenFor(app, env, account.value);
        trace := trace + calls;
        if signed.Threw? {
          response := Caught(response);
          trace := trace + [Log(signed.fault)];
          return;
        }
        response := response.(isSuccess := true);
        response := response.(data := Some(signed.value));
        response := response.(message := Some(MessageToken));
        return;
      }
    } else {
      response := response.(isSuccess := false);
      response := response.(message := Some(MessageTokenError));
    }
  }

  /** The registration passes validation, mapping and hashing. */
  predicate ReachesStorage(app: Services, request: UserRequest) {
    && app.validate(request).Returned? && app.validate(request).value.IsValid()
    && app.mapUser(request).Returned?
    && app.hashPassword(request.password).Returned?
  }

  /** The registration also passes the image upload, when there is an image. */
  predicate ReachesInsert(app: Services, request: UserRequest) {
    && ReachesStorage(app, request)
    && (request.image.Some? ==> app.saveFile(Users, request.image.value).Returned?)
  }

  /** The exception a registration runs into, if any: from the validator,
      then (for a valid request) from mapping, hashing, the upload of a
      present image, and the insert, whichever throws first. */
  function RegistrationFault(app: Services, request: UserRequest): Option<Fault> {
    var validation := app.validate(request);
    if validation.Threw? then Some(validation.fault)
    else if !validation.value.IsValid() then None
    else if app.mapUser(request).Threw? then Some(app.mapUser(request).fault)
    else if app.hashPassword(request.password).Threw? then Some(app.hashPassword(request.password).fault)
    else if request.image.Some? && app.saveFile(Users, request.image.value).Threw? then
      Some(app.saveFile(Users, request.image.value).fault)
    else
      var inserted := app.registerAsync(PreparedAccount(app, request));
      if inserted.Threw? then Some(inserted.fault) else None
  }

  /** The calls registration makes before the insert, in order. */
  function StepsBeforeInsert(request: UserRequest): seq<Call> {
    [ValidateUser(request), MapUser(request), HashPassword(request.password)]
    + (if request.image.Some? then [SaveFile(Users, request.image.value)] else [])
  }

  /** The account handed to the insert: the mapped account with the password
      replaced by its hash and, when an image was uploaded, the image
      replaced by the address the upload returned. */
  function PreparedAccount(app: Services, request: UserRequest): (account: User)
    requires ReachesInsert(app, request)
    ensures account.password == Some(app.hashPassword(request.password).value)
    ensures request.image.Some? ==> account.image == Some(app.saveFile(Users, request.image.value).value)
    ensures request.image.None? ==> account.image == app.mapUser(request).value.image
    ensures account.id == app.mapUser(request).value.id
    ensures account.userName == app.mapUser(request).value.userName
    ensures account.email == app.mapUser(request).value.email
  {
    var hashed := app.mapUser(request).value.(password := Some(app.hashPassword(request.password).value));
    if request.image.Some? then hashed.(image := Some(app.saveFile(Users, request.image.value).value))
    else hashed
  }

  /** Registration: validate the request; on failure report the validator's
      errors and do nothing else. Otherwise map it to an account, replace
      the password with its hash, store the image (if any) in the users
      container and keep its address on the account, then insert the
      account and report the insert's result. Any exception gives the
      exception message and is logged. */
  method RegisterUser(app: Services, request: UserRequest)
    returns (response: BaseResponse<bool>, trace: seq<Call>)
    ensures WellFormed(response, false)
    ensures |trace| > 0 && trace[0] == ValidateUser(request)
    // an invalid request: the validator's errors, and no other collaborator is called
    ensures app.validate(request).Threw? ==>
      trace == [ValidateUser(request), Log(app.validate(request).fault)]
    ensures app.validate(request).Returned? && !app.validate(request).value.IsValid() ==>
      && response == BaseResponse(false, false, Some(MessageValidate), Some(app.validate(request).value.errors))
      && trace == [ValidateUser(request)]
    ensures response.errors.Some? ==> response.message == Some(MessageValidate) && trace == [ValidateUser(request)]
    // the image is uploaded exactly when there is one and the steps before it succeeded
    ensures ReachesStorage(app, request) && request.image.Some? ==>
      |trace| > 3 && trace[3] == SaveFile(Users, request.image.value)
    ensures !(ReachesStorage(app, request) && request.image.Some?) ==>
      forall i :: 0 <= i < |trace| ==> !trace[i].SaveFile?
    // the insert is reached exactly when every earlier step succeeded, and it
    // receives the prepared account after validation, mapping, hashing and the upload
    ensures ReachesInsert(app, request) ==>
      var n := |StepsBeforeInsert(request)|;
      && |trace| > n
      && trace[..n] == StepsBeforeInsert(request)
      && trace[n] == RegisterAsync(PreparedAccount(app, request))
    ensures !ReachesInsert(app, request) ==> forall i :: 0 <= i < |trace| ==> !trace[i].RegisterAsync?
    // the insert's result is the payload and decides the outcome
    ensures ReachesInsert(app, request) && app.registerAsync(PreparedAccount(app, request)).Returned? ==>
      var saved := app.registerAsync(PreparedAccount(app, request)).value;
      && response.data == saved && response.isSuccess == saved
      && response.message == Some(if saved then MessageSave else MessageFailed)
      && trace == StepsBeforeInsert(request) + [RegisterAsync(PreparedAccount(app, request))]
    ensures response.isSuccess ==> ReachesInsert(app, request) && !EndsInLog(trace)
    // any exception: generic message, logged last and nowhere else
    ensures response.message == Some(MessageException) <==> EndsInLog(trace)
    ensures forall i :: 0 <= i < |trace| - 1 ==> !trace[i].Log?
    ensures RegistrationFault(app, request).Some? ==>
      && response == BaseResponse(false, false, Some(MessageException), None)
      && trace[|trace| - 1] == Log(RegistrationFault(app, request).value)
    ensures RegistrationFault(app, request).None? ==> !EndsInLog(trace)
    // the whole trace when a step after validation throws: nothing after it runs
    ensures app.validate(request).Returned? && app.validate(request).value.IsValid() &&
            app.mapUser(request).Threw? ==>
      trace == [ValidateUser(request), MapUser(request), Log(app.mapUser(request).fault)]
    ensures app.validate(request).Returned? && app.validate(request).value.IsValid() &&
            app.mapUser(request).Returned? && app.hashPassword(request.password).Threw? ==>
      trace == [ValidateUser(request), MapUser(request), HashPassword(request.password),
                Log(app.hashPassword(request.password).fault)]
    ensures ReachesStorage(app, request) && request.image.Some? &&
            app.saveFile(Users, request.image.value).Threw? ==>
      trace == StepsBeforeInsert(request) + [Log(app.saveFile(Users, request.image.value).fault)]
    ensures ReachesInsert(app, request) && app.registerAsync(PreparedAccount(app, request)).Threw? ==>
      trace == StepsBeforeInsert(request)
               + [RegisterAsync(PreparedAccount(app, request)),
                  Log(app.registerAsync(PreparedAccount(app, request)).fault)]
  {
    response := NewResponse(false);
    trace := [ValidateUser(request)];
    var validation := app.validate(request);
    if validation.Threw? {
      response := Caught(response);
      trace := trace + [Log(validation.fault)];
      return;
    }
    if !validation.value.IsValid() {
      response := response.(isSuccess := false);
      response := response.(message := Some(MessageValidate));
      response := response.(errors := Some(validation.value.errors));
      return;
    }

    trace := trace + [MapUser(request)];
    var mapped := app.mapUser(request);
    if mapped.Threw? {
      response := Caught(response);
      trace := trace + [Log(mapped.fault)];
      return;
    }
    var account := mapped.value;
    trace := trace + [HashPassword(request.password)];
    var hashed := app.hashPassword(request.password);
    if hashed.Threw? {
      response := Caught(response);
      trace := trace + [Log(hashed.fault)];
      return;
    }
    account := account.(password := Some(hashed.value));

    if request.image.Some? {
      trace := trace + [SaveFile(Users, request.image.value)];
      var stored := app.saveFile(Users, request.image.value);
      if stored.Threw? {
        response := Caught(response);
        trace := trace + [Log(stored.fault)];
        return;
      }
      account := account.(image := Some(stored.value));
    }

    trace := trace + [RegisterAsync(account)];
    var registered := app.registerAsync(account);
    if registered.Threw? {
      response := Caught(response);
      trace := trace + [Log(registered.fault)];
      return;
    }
    response := response.(data := registered.value);
    if response.data {
      response := response.(isSuccess := true);
      response := response.(message := Some(MessageSave));
    } else {
      response := response.(isSuccess := false);
      response := response.(message := Some(MessageFailed));
    }
  }
}

=== FILE: validation.dfy ===
/** The shape of a FluentValidation verdict as the service consumes it. */
module Validation {

  /** One violated rule: the property it is about, its message and the code
      of the rule that produced it. */
  datatype ValidationFailure = ValidationFailure(propertyName: string, errorMessage: string, errorCode: string)

  /** A verdict lists every violated rule; it is valid when it lists none. */
  datatype ValidationResult = ValidationResult(errors: seq<ValidationFailure>) {
    predicate IsValid() { |errors| == 0 }
  }
}
